=== FILE: README.md ===
# KZSwiftBridging core, modelled in Dafny

KZSwiftBridging is a Swift convenience layer over Foundation/UIKit key-value
observing (KVO) and boxing. Its core has three parts, and this project models
all three:

1. **The observer lifecycle.** `KeyValueObjectObserverBase` has one
   `_observing` flag. `startObserving` and `stopObserving` check it, so a
   second call does nothing. `deinit` calls `stopObserving`.
   - Module `ObserverLifecycle` models the observer as a value.
   - The host is modelled by the ordered log of calls the observer makes on
     it: set or clear the associated object, and add or remove the KVO
     registration.
   - Registration counts and whether the association is held are read off
     that log.
2. **Change decoding and registration.** `observeValueForKeyPath` turns the
   untyped change dictionary into `(kind, old?, new?)`. The `didObserveChange`
   variants then convert values for numbers, raw-value enums and structs, and
   the nine `addObserver` overloads pick options, decoding and a handler
   adapter. These are modules `ChangeDecoding` and `Registration`.
3. **The sign and ordering logic of the `NSDecimal` extensions.** That is five
   operators over one three-way compare, the sign/magnitude integer
   initialisers, prefix `-` and `isSignMinus`. This is module `Decimals`.

Supporting modules:
- `Swift` holds optionals, traps and integer widths.
- `Boxes` models `NSNumber`/`NSValue` as opaque types.
- `ValueWrappable` and `NumberWrappable` hold the `nil`-lifting helpers.

Modelling choices:
- Protocol conformances (`NSValueWrappable`, `NSNumberWrappable`,
  `RawRepresentable`) are records of functions passed as parameters.
- Foundation's accessors (`unsignedLongValue`, `intValue`, ...) are
  parameters. So is `NSDecimalCompare`.
- A trap (a forced cast `as!`, a forced unwrap `!`, an arithmetic overflow)
  is an explicit outcome: `Trapped` or `Crashed`. It is not a precondition.
- Handlers are functions. The value a handler returns stands for its effect.
- `Int` and `UInt` are taken to be 64 bits wide.

Behaviour of the code that the model keeps:
- A change dictionary whose kind is missing, or whose kind entry is not an
  `NSNumber`, traps at the forced cast `as!`, and the model gives `Crashed`.
  Any number is accepted as a kind. `NSKeyValueChange` is an enum imported
  from Objective-C, so its `init(rawValue:)` never fails and the forced
  unwrap after it cannot trap. A number outside 1 to 4 reaches the handler
  as an unnamed kind.
- A stopped observer can be started again. `startObserving` only looks at
  the flag, so stop then start registers afresh.

## Model

| member | source | states |
|---|---|---|
| `Swift.NarrowNegate` | KZSwiftBridging/NSDecimalExtensions.swift:78 | Swift's `-value` in a signed type of width w traps exactly when value is `T.min`; otherwise it yields `-value`, still in range |
| `Boxes.AsNumber` | KZSwiftBridging/KeyValueObserver.swift:81 | `as NSNumber` succeeds exactly on a boxed number and returns that same number |
| `Boxes.AsValue` | KZSwiftBridging/KeyValueObserver.swift:143 | `as? NSValue` (the struct observer's base type) succeeds exactly on boxed values, numbers included, and returns the box |
| `Boxes.AsObject` | KZSwiftBridging/NSObjectExtensions.swift:20 | `as? NSObject` (the generic overload's base type) accepts every object in a change dictionary |
| `Boxes.NumberCastImpliesValueCast` | KZSwiftBridging/KeyValueObserver.swift:143 | an `NSNumber` is an `NSValue`: whatever passes the number cast passes the value cast as the same box |
| `ValueWrappable.OptionalFromValue` | KZSwiftBridging/NSValueWrappable.swift:24-31 | `nil` gives `.None`; a box gives `.Some(Wrapped(value:))`; it traps only when `init(value:)` traps on that box |
| `ValueWrappable.ToOptionalValue` | KZSwiftBridging/NSValueWrappable.swift:33-38 | `.None` gives `nil`; `.Some(x)` gives `x.toNSValue()` |
| `ValueWrappable.FailableFromValue` | KZSwiftBridging/NSValueWrappable.swift:43-48 | `init?(optionalValue:)` returns `nil` exactly when its argument is `nil`; otherwise it is `init(value:)` |
| `ValueWrappable.FailableAgreesWithOptionalInit` | KZSwiftBridging/NSValueWrappable.swift:23-48 | the failable protocol initialiser and `Optional.init(optionalValue:)` agree on every input |
| `ValueWrappable.OptionalRoundTrip` | KZSwiftBridging/NSValueWrappable.swift:23-39 | if unbox(box(x)) = x for `Wrapped`, then the Optional lifting round-trips too, with `nil` mapped to `nil` |
| `NumberWrappable.ToValue` | KZSwiftBridging/NSNumberWrappable.swift:25-27 | the default `toNSValue()` is the value's `toNSNumber()`, as an `NSValue` |
| `NumberWrappable.FromValue` | KZSwiftBridging/NSNumberWrappable.swift:21-23 | the default `init(value:)` traps exactly on a non-number box (the forced cast); on a number it is `init(number)` |
| `NumberWrappable.AsValueConformance` | KZSwiftBridging/NSNumberWrappable.swift:20-28 | the `NSValueWrappable` conformance a number type gets from the defaults boxes through its `NSNumber` and unboxes by the forced cast |
| `NumberWrappable.DefaultsRoundTrip` | KZSwiftBridging/NSNumberWrappable.swift:20-28 | a type that round-trips through `NSNumber` also round-trips through `NSValue` with the default members |
| `NumberWrappable.OptionalFromNumber` | KZSwiftBridging/NSNumberWrappable.swift:31-37 | `init?(_ optionalNumber:)` returns `nil` iff its argument is `nil`; for a number it equals `init(number)` |
| `NumberWrappable.OptionalNumberRoundTrip` | KZSwiftBridging/NSNumberWrappable.swift:30-38 | boxing an optional (`nil` to `nil`) and unboxing it with `init?(_ optionalNumber:)` gives the optional back |
| `ObserverLifecycle.Create` | KZSwiftBridging/KeyValueObserver.swift:19-29 | a new observer stores its key path and options, is not observing, and has asked nothing of the host |
| `ObserverLifecycle.StartObserving` | KZSwiftBridging/KeyValueObserver.swift:31-47 | `startObserving()` always leaves the observer observing, keeps its key path and options, only appends to the host calls, and does nothing when already observing; what it appends is stated by `StartFromIdle` |
| `ObserverLifecycle.StopObserving` | KZSwiftBridging/KeyValueObserver.swift:49-65 | `stopObserving()` always leaves the observer not observing, keeps its key path and options, only appends to the host calls, and does nothing when not observing; what it appends is stated by `StopFromObserving` |
| `ObserverLifecycle.IsObserving` | KZSwiftBridging/KeyValueObserver.swift:67-69 | `isObserving()` reads the flag; `ObservingIffRegistered` proves it true exactly while one registration is outstanding at the host |
| `ObserverLifecycle.Deinit` | KZSwiftBridging/KeyValueObserver.swift:71-73 | `deinit` leaves the observer not observing, with its key path and options, only appending host calls; `DeinitUnregisters` proves no registration or association is left |
| `ObserverLifecycle.StartKeepsConsistent` | KZSwiftBridging/KeyValueObserver.swift:37-46 | starting from idle keeps the lifecycle invariant: the association call then the registration take the balance from 0 to 1 and leave the association held |
| `ObserverLifecycle.StopKeepsConsistent` | KZSwiftBridging/KeyValueObserver.swift:54-63 | stopping while observing keeps the lifecycle invariant: the removal takes the balance from 1 to 0 and the final call clears the association |
| `ObserverLifecycle.StartWhileObservingIsNoOp` | KZSwiftBridging/KeyValueObserver.swift:31-34 | `startObserving` while observing changes nothing: no new call to the host, the flag stays true |
| `ObserverLifecycle.StartFromIdle` | KZSwiftBridging/KeyValueObserver.swift:36-46 | from idle: it sets the association, then registers exactly once with the stored key path and options, then raises the flag; removals are unchanged |
| `ObserverLifecycle.StopWhileIdleIsNoOp` | KZSwiftBridging/KeyValueObserver.swift:49-52 | `stopObserving` while not observing changes nothing |
| `ObserverLifecycle.StopIsIdempotent` | KZSwiftBridging/KeyValueObserver.swift:49-65 | stopping twice equals stopping once, and leaves the observer not observing |
| `ObserverLifecycle.StopFromObserving` | KZSwiftBridging/KeyValueObserver.swift:54-63 | from observing: it unregisters exactly once for the key path, then clears the association and lowers the flag; registrations are unchanged |
| `ObserverLifecycle.CreateIsConsistent` | KZSwiftBridging/KeyValueObserver.swift:19-29 | a new observer satisfies the lifecycle invariant |
| `ObserverLifecycle.ApplyKeepsConsistent` | KZSwiftBridging/KeyValueObserver.swift:31-65 | start and stop keep the invariant: outstanding registrations are 1 if observing and 0 if not; the association is held iff observing; no prefix of the log ever has more than one outstanding registration or a removal before its registration; every call uses the stored key path and options |
| `ObserverLifecycle.Run` | KZSwiftBridging/KeyValueObserver.swift:31-65 | any sequence of starts and stops, in any order, keeps the invariant and the stored key path and options |
| `ObserverLifecycle.ObservingIffRegistered` | KZSwiftBridging/KeyValueObserver.swift:67-69 | under the invariant, `isObserving()` is true iff registrations minus removals is 1, and false iff it is 0 |
| `ObserverLifecycle.DeinitUnregisters` | KZSwiftBridging/KeyValueObserver.swift:71-73 | in the modelled host, where `object` is always present, `deinit` always leaves no registration outstanding and no association held |
| `ObserverLifecycle.EveryRegistrationBalanced` | KZSwiftBridging/KeyValueObserver.swift:31-73 | for any starts and stops on a fresh observer followed by `deinit`: registrations equal removals, no removal comes before its registration, and every registration uses the observer's own key path and options |
| `ChangeDecoding.KindFromRaw` | KZSwiftBridging/KeyValueObserver.swift:82 | `NSKeyValueChange(rawValue:)` on the imported enum never fails: it returns a kind with exactly the given raw value, which is one of the four named kinds iff the raw value is 1 to 4 |
| `ChangeDecoding.KindRawRoundTrip` | KZSwiftBridging/KeyValueObserver.swift:82 | every change kind is recovered from its raw value |
| `ChangeDecoding.KindOf` | KZSwiftBridging/KeyValueObserver.swift:81-82 | the kind is read exactly when the kind key is present and holds an `NSNumber` (otherwise the forced cast traps), and its raw value is that number's `unsignedLongValue`, named or not |
| `ChangeDecoding.Lookup` | KZSwiftBridging/KeyValueObserver.swift:84-85 | `dict[key] as? Type` is `nil` for an absent key; otherwise it is the cast of the stored object |
| `ChangeDecoding.ObserveValue` | KZSwiftBridging/KeyValueObserver.swift:75-87 | a `nil` dictionary gives no callback. A dictionary whose kind is absent or not a number traps. Otherwise `didObserveChange` gets the kind, then the old and new values: absent or failed casts become `nil` |
| `ChangeDecoding.UnnamedKindIsDelivered` | KZSwiftBridging/KeyValueObserver.swift:81-86 | a kind number that names no case (5) is not a trap: `didObserveChange` receives an unnamed kind with raw value 5 |
| `ChangeDecoding.DecodeHostChange` | KZSwiftBridging/KeyValueObserver.swift:75-87 | when the number the host boxes the kind in reads back as its raw value, decoding the dictionary the host builds for a change gives back its kind and the requested values, cast to the base type; values not requested arrive as `nil` |
| `ChangeDecoding.DidObserveNumberChange` | KZSwiftBridging/KeyValueObserver.swift:114-118 | the number variant passes the kind through; each value is `nil` iff the number is `nil`, else `init(number)` |
| `ChangeDecoding.NumberChangeRoundTrip` | KZSwiftBridging/KeyValueObserver.swift:114-118 | numbers boxed from a round-tripping number type decode back to the original change |
| `ChangeDecoding.DecodeEnum` | KZSwiftBridging/KeyValueObserver.swift:129-137 | an enum value is `nil` for a `nil` number; otherwise it is `init?(rawValue:)` of the number's raw value, so `nil` when no case matches |
| `ChangeDecoding.DidObserveEnumChange` | KZSwiftBridging/KeyValueObserver.swift:128-139 | the enum variant passes the kind through and decodes the old and new values each as an enum case |
| `ChangeDecoding.EnumRoundTrip` | KZSwiftBridging/KeyValueObserver.swift:132-137 | the box of a case's raw value decodes back to that case |
| `ChangeDecoding.EnumUnknownRawIsNil` | KZSwiftBridging/KeyValueObserver.swift:132-137 | a raw value with no matching case decodes to `nil`, not a trap |
| `ChangeDecoding.DidObserveStructChange` | KZSwiftBridging/KeyValueObserver.swift:150-152 | the struct variant passes the kind through and decodes each value with `init?(optionalValue:)` (`nil` to `nil`); it traps iff unboxing either value traps |
| `ChangeDecoding.StructChangeRoundTrip` | KZSwiftBridging/KeyValueObserver.swift:150-152 | boxes of a round-tripping struct type decode back to the original change, with `nil` staying `nil` |
| `Registration.Subscribe` | KZSwiftBridging/NSObjectExtensions.swift:20-25 | the shared body of every overload (create, install the handler, `startObserving()`, return; also lines 37-41, 52-56, 68-72, 83-87, 99-103, 114-118, 130-134, 146-150): the observer returned is observing, consistent, has made exactly the association call and one registration with the given key path and options, and carries the given cast, decoding and handler |
| `Registration.AddAnyObserver` | KZSwiftBridging/NSObjectExtensions.swift:18-26 | the generic overload registers with the empty option set and accepts any object; its handler ignores kind, old and new; the observer returned is observing |
| `Registration.AddStructObserver` | KZSwiftBridging/NSObjectExtensions.swift:36-42 | requests exactly {Old, New}, decodes with the struct variant, installs the user handler unchanged, returns an observing observer |
| `Registration.AddSimpleStructObserver` | KZSwiftBridging/NSObjectExtensions.swift:51-57 | requests exactly {New}, decodes with the struct variant, calls the user handler with exactly the new value, returns an observing observer |
| `Registration.AddNumberObserver` | KZSwiftBridging/NSObjectExtensions.swift:67-73 | requests exactly {Old, New}, decodes with the number variant, installs the user handler unchanged, returns an observing observer |
| `Registration.AddSimpleNumberObserver` | KZSwiftBridging/NSObjectExtensions.swift:82-88 | requests exactly {New}, decodes with the number variant, calls the user handler with exactly the new value, returns an observing observer |
| `Registration.AddObjectObserver` | KZSwiftBridging/NSObjectExtensions.swift:98-104 | requests exactly {Old, New}, casts with `as? Type` and passes the result on unchanged, installs the user handler unchanged, returns an observing observer |
| `Registration.AddSimpleObjectObserver` | KZSwiftBridging/NSObjectExtensions.swift:113-119 | requests exactly {New}, casts with `as? Type`, calls the user handler with exactly the new value, returns an observing observer |
| `Registration.AddEnumObserver` | KZSwiftBridging/NSObjectExtensions.swift:129-135 | requests exactly {Old, New}, decodes with the enum variant, installs the user handler unchanged, returns an observing observer |
| `Registration.AddSimpleEnumObserver` | KZSwiftBridging/NSObjectExtensions.swift:145-151 | requests exactly {New}, decodes with the enum variant, calls the user handler with exactly the new value, returns an observing observer |
| `Registration.Notify` | KZSwiftBridging/KeyValueObserver.swift:75-104 | a `nil` dictionary is ignored; the notification crashes exactly when the kind is missing or not a number, or the variant's unboxing traps; otherwise the handler is called exactly once, with the kind and values the variant decoded (the handler calls at lines 103, 117, 138 and 151) |
| `Registration.NothingDeliveredAfterStop` | KZSwiftBridging/KeyValueObserver.swift:49-65 | after `stopObserving` (or `deinit`) the host has no registration, so nothing reaches the handler |
| `Registration.StartedObserverIsNotified` | KZSwiftBridging/KeyValueObserver.swift:42-46 | an observer returned by any overload is registered, so every host notification reaches it |
| `Registration.NumberObserverSeesSetting` | KZSwiftBridging/NSObjectExtensions.swift:67-73 | observing a number with old and new values, a setting change from x to y calls the handler once with (Setting, x, y) |
| `Registration.SimpleNumberObserverSeesNewValue` | KZSwiftBridging/NSObjectExtensions.swift:82-88 | a simple number observer's handler gets exactly the new value |
| `Registration.StructObserverRoundTrip` | KZSwiftBridging/NSObjectExtensions.swift:36-42 | a struct observer hands its handler the kind and the values that were boxed, with `nil` staying `nil` |
| `Registration.EnumObserverRoundTrip` | KZSwiftBridging/NSObjectExtensions.swift:129-135 | an enum observer hands its handler the cases whose raw values were boxed |
| `Registration.AnyObserverSeesEveryChange` | KZSwiftBridging/NSObjectExtensions.swift:18-26 | the generic observer calls its handler for every well-formed change, whatever its values |
| `Decimals.IsSignMinus` | KZSwiftBridging/NSDecimalExtensions.swift:140 | `isSignMinus` is the sign bit: a non-NaN decimal with it set denotes a number at most zero, and every negative decimal has it set |
| `Decimals.MakeDecimal` | KZSwiftBridging/NSDecimalExtensions.swift:10-12 | the decimal denotes ±mantissa×10^exponent with the requested sign; a zero mantissa with the sign set is NaN |
| `Decimals.FromUnsigned` | KZSwiftBridging/NSDecimalExtensions.swift:72-74 | each unsigned initialiser (same body at lines 84-86, 96-98, 108-110, 120-122) gives mantissa = value, exponent 0, non-negative; the decimal denotes the value |
| `Decimals.FromSignedAsWritten` | KZSwiftBridging/NSDecimalExtensions.swift:76-82 | each signed initialiser as written (same body at lines 88-94, 100-106, 112-118, 124-130) traps iff value is `T.min`; otherwise it gives mantissa = abs(value), exponent 0, negative iff value < 0 |
| `Decimals.Int8MinTraps` | KZSwiftBridging/NSDecimalExtensions.swift:76-82 | `NSDecimal(Int8(-128))` traps |
| `Decimals.FromSigned` | KZSwiftBridging/NSDecimalExtensions.swift:76-82 | corrected signed initialiser: for every value of the type, `T.min` included, mantissa = abs(value), exponent 0, negative iff value < 0; the decimal denotes the value |
| `Decimals.FromSignedAgreesBelowMin` | KZSwiftBridging/NSDecimalExtensions.swift:76-82 | the correction differs from the code only at `T.min` |
| `Decimals.NegateAsWritten` | KZSwiftBridging/NSDecimalExtensions.swift:187-191 | prefix `-` as written flips `isSignMinus` (that is, `_isNegative != 0`), zero included, and leaves mantissa and exponent unchanged |
| `Decimals.NegateAsWrittenTwice` | KZSwiftBridging/NSDecimalExtensions.swift:187-191 | applying prefix `-` twice gives the original decimal back |
| `Decimals.NegateAsWrittenZeroIsNaN` | KZSwiftBridging/NSDecimalExtensions.swift:187-191 | negating zero as written gives Foundation's NaN encoding, and negating that NaN gives a non-NaN |
| `Decimals.Negate` | KZSwiftBridging/NSDecimalExtensions.swift:187-191 | corrected prefix `-`: NaN iff the argument is NaN; a non-NaN result denotes minus the argument; the sign flips for every nonzero mantissa; mantissa and exponent are unchanged |
| `Decimals.NegateTwice` | KZSwiftBridging/NSDecimalExtensions.swift:187-191 | corrected negation is its own inverse |
| `Decimals.Equal` | KZSwiftBridging/NSDecimalExtensions.swift:19-22 | `==` is `NSDecimalCompare` answering Same; `OperatorsByValue` proves it numeric equality and `EqualIsNumeric` that it is not field equality |
| `Decimals.Less` | KZSwiftBridging/NSDecimalExtensions.swift:24-27 | `<` is the compare answering Ascending; `OperatorsByValue` proves it the numeric `<` |
| `Decimals.LessOrEqual` | KZSwiftBridging/NSDecimalExtensions.swift:29-32 | `<=` is the compare not answering Descending; `OperatorsFromOneCompare` proves it `<` or `==`, and `OperatorsByValue` the numeric `<=` |
| `Decimals.GreaterOrEqual` | KZSwiftBridging/NSDecimalExtensions.swift:34-37 | `>=` is the compare not answering Ascending; `OperatorsFromOneCompare` proves it `>` or `==`, and `OperatorsByValue` the numeric `>=` |
| `Decimals.Greater` | KZSwiftBridging/NSDecimalExtensions.swift:39-42 | `>` is the compare answering Descending; `OperatorsByValue` proves it the numeric `>` and `LessOrEqualIsTotalPreorder` that it is `<` swapped |
| `Decimals.OperatorsFromOneCompare` | KZSwiftBridging/NSDecimalExtensions.swift:19-42 | for any compare function, exactly one of `<`, `==`, `>` holds; `a <= b` iff `a < b` or `a == b` iff not `a > b`; `a >= b` iff `a > b` or `a == b` iff not `a < b` |
| `Decimals.OperatorsByValue` | KZSwiftBridging/NSDecimalExtensions.swift:19-42 | when the compare orders by value, `==`, `<`, `<=`, `>=` and `>` are the numeric relations on the values the decimals denote |
| `Decimals.EqualIsNumeric` | KZSwiftBridging/NSDecimalExtensions.swift:19-22 | `==` is numeric equality, not field equality: 10×10^0 equals 1×10^1 |
| `Decimals.FromSignedPreservesOrder` | KZSwiftBridging/NSDecimalExtensions.swift:76-130 | the corrected signed initialisers (`FromSigned`) preserve `<`, `==` and `<=` between integers; the code as written agrees with them on every value except `T.min`, where it traps (`FromSignedAgreesBelowMin`) |
| `Decimals.FromUnsignedPreservesOrder` | KZSwiftBridging/NSDecimalExtensions.swift:72-122 | the unsigned initialisers preserve `<`, `==` and `<=` between integers |
| `Decimals.NegateReversesOrder` | KZSwiftBridging/NSDecimalExtensions.swift:187-191 | for the corrected prefix `-` (`Negate`), on non-NaN decimals, `-a < -b` iff `b < a`, and `-a == -b` iff `a == b`; the code as written breaks this at zero, which it turns into NaN (`NegateAsWrittenZeroIsNaN`) |
| `Decimals.LessOrEqualIsTotalPreorder` | KZSwiftBridging/NSDecimalExtensions.swift:29-42 | on non-NaN decimals, `<=` is reflexive, total and transitive; `<=` both ways means `==`; `a > b` iff `b < a` |

## Left out

- The real KVO registry, the retain semantics of associated objects, and the weak `object` reference are not modelled. The host is the log of calls the observer makes on it. So a deallocated `object` (which would crash the forced unwrap) is outside the model.
- `KeyValueObjectObserver.didObserveChange` (KeyValueObserver.swift:102-104) forwards the change unchanged. It appears as the identity decoding of `Registration.AddObjectObserver` and has no member of its own.
- The per-type `NSNumberWrappable` and `NSValueWrappable` conformances (`Int8`, `Double`, `Bool`, `CGPoint`, `UIEdgeInsets`, ...) are not modelled one by one. Their bodies call Foundation accessors, whose truncation and rounding are Foundation's. Each conformance is an abstract record of functions.
- `NSDecimal.init?(_ optionalNumber: NSDecimalNumber?)` (NSNumberWrappable.swift:198-204) is not a separate member. It has the same shape as `NumberWrappable.OptionalFromNumber`. Its conversion `NSDecimal(number)` is Foundation's.
- The NSDecimal arithmetic `+ - * /`, `pow`, `distanceTo` and `advancedBy` are left out. They are rounding decimal arithmetic inside Foundation.
- The NSDecimal `infinity`/`NaN` constants and the classification properties go through `Double` floating point and are left out. `isSignMinus` is modelled.
- `init(integerLiteral:)` (NSDecimalExtensions.swift:178-180) has no member of its own. It calls `init(_: Int)` as written, which is `Decimals.FromSignedAsWritten` at 64 bits, so it traps at `Int.min` as well. `init(floatLiteral:)` goes through `Double` and is left out.
- Bit-pattern casts, the Objective-C bridging, `description` and the string-based `hashValue` depend on memory layout or Foundation formatting. They are left out.
- NSNumber_Init.swift and NSValue_Init.swift are not part of this model. They are one-line delegations to Foundation constructors.
- Concurrency and re-entrancy from the host are not modelled. The layer adds no concurrency of its own.
- `Decimals.MakeDecimal`: does not model Foundation's normalisation, which may compact trailing zeros into the exponent and range-check the exponent. The decimal keeps the fields it was asked for. The number it denotes is the same either way.
- `Decimals.FromUnsigned`: states mantissa = value and exponent 0 for the fields handed to Foundation, before any normalisation. See `Decimals.MakeDecimal`.
- `ObserverLifecycle.DeinitUnregisters`: holds only in the modelled host, where `object` is always present. The association (KeyValueObserver.swift:37-40) retains the observer while `_observing` is true. So `deinit` can reach the removal branch only after `object` is gone, for example when the user keeps the observer, `object` is deallocated, and then the observer is released. There the weak `object` (line 21) is nil, and the forced unwrap at line 54 would trap before any removal. So the removal branch of `deinit` never completes in the real runtime. The same holds for `ObserverLifecycle.Deinit` and `ObserverLifecycle.EveryRegistrationBalanced`, whose final `deinit` step assumes `object` is present.
- `ChangeDecoding.KindOf`: Foundation's `unsignedLongValue` is an abstract parameter returning a `UInt`. How it converts a number that is negative, fractional or too large for `UInt` is Foundation's, so the model says nothing about which raw value such a number gives.
- `Int` and `UInt` are modelled as 64-bit. On 32-bit platforms they are 32-bit, and the same trap arises at `Int32.min`.

## Findings

| source | as written | input that shows it | evidently intended | confidence | as-written member | corrected member |
|---|---|---|---|---|---|---|
| KZSwiftBridging/NSDecimalExtensions.swift:76-82 | `UInt64(-value)` negates in the value's own signed type, and Swift traps on overflow | `NSDecimal(Int8(-128))`; likewise `Int16.min`, `Int32.min`, `Int64.min`, `Int.min` | mantissa 128 (the magnitude), exponent 0, negative | high; not executed | `Decimals.FromSignedAsWritten`, exhibited by `Decimals.Int8MinTraps` | `Decimals.FromSigned` |
| KZSwiftBridging/NSDecimalExtensions.swift:187-191 | sets `_isNegative` on every decimal, including zero (no mantissa words) | `-NSDecimal(UInt8(0))` gives no mantissa words with the sign set, which is Foundation's NaN encoding; negating that NaN gives zero | zero stays zero and NaN stays NaN; only nonzero values change sign | medium: relies on Foundation's NaN encoding (`_length == 0 && _isNegative == 1`), which lies outside this code; not executed | `Decimals.NegateAsWritten`, exhibited by `Decimals.NegateAsWrittenZeroIsNaN` | `Decimals.Negate` |

=== FILE: boxes.dfy ===
/** Foundation's boxes as the bridging layer sees them. What an `NSNumber`
    holds, or which struct an `NSValue` carries, is Foundation's business, so
    their contents are opaque types here. */
module Boxes {
  import opened Swift

  /** An `NSNumber` instance. */
  type Number(==, !new)

  /** The bytes of a struct boxed in an `NSValue` (`CGPoint`, `CGRect`, ...). */
  type StructBytes(==, !new)

  /** Any other object that can appear in a change dictionary (`NSNull`
      among them). */
  type PlainObject(==, !new)

  /** An `NSValue`. `NSNumber` is a subclass of `NSValue`, so a number is a
      value too. */
  datatype Value = NumberValue(number: Number) | StructValue(bytes: StructBytes)

  /** An object as it appears in a change dictionary. */
  datatype Obj = Boxed(value: Value) | Plain(object: PlainObject)

  /** The conditional cast `obj as? NSNumber`. */
  function AsNumber(o: Obj): (r: Optional<Number>)
    ensures r.Some? <==> o.Boxed? && o.value.NumberValue?
    ensures r.Some? ==> o == Boxed(NumberValue(r.value))
  {
    match o
    case Boxed(NumberValue(n)) => Some(n)
    case _ => None
  }

  /** The conditional cast `obj as? NSValue`. */
  function AsValue(o: Obj): (r: Optional<Value>)
    ensures r.Some? <==> o.Boxed?
    ensures r.Some? ==> o == Boxed(r.value)
  {
    match o
    case Boxed(v) => Some(v)
    case Plain(_) => None
  }

  /** The conditional cast `obj as? NSObject`: every object in a change
      dictionary is one. */
  function AsObject(o: Obj): (r: Optional<Obj>)
    ensures r == Some(o)
  {
    Some(o)
  }

  /** A number passes the `NSValue` cast too, as the same box. */
  lemma NumberCastImpliesValueCast(o: Obj)
    requires AsNumber(o).Some?
    ensures AsValue(o) == Some(NumberValue(AsNumber(o).value))
  {
  }
}

=== FILE: change_decoding.dfy ===
/** Turning the host's untyped change dictionary into a typed change:
    `observeValueForKeyPath(_:ofObject:change:context:)` of the observer
    base class, and the four `didObserveChange` variants that convert the
    base type (object, `NSNumber`, `NSValue`) into the type the user asked
    for. */
module ChangeDecoding {
  import opened Swift
  import opened Boxes
  import NumberWrappable
  import ValueWrappable

  /** `NSKeyValueChange`, an enum imported from Objective-C: a wrapper
      around its raw `UInt`. Raw values other than the four named kinds are
      representable and carried as they are. */
  datatype Kind = Kind(rawValue: UInt)

  const Setting: Kind := Kind(1)
  const Insertion: Kind := Kind(2)
  const Removal: Kind := Kind(3)
  const Replacement: Kind := Kind(4)

  /** One of the four kinds Foundation names. */
  predicate IsNamed(k: Kind) {
    k in {Setting, Insertion, Removal, Replacement}
  }

  /** `NSKeyValueChange(rawValue:)`. Swift gives an imported enum a failable
      initializer that never fails: it keeps whatever raw value it is given,
      so the forced unwrap after it cannot trap. */
  function KindFromRaw(raw: UInt): (r: Optional<Kind>)
    ensures r.Some? && r.value.rawValue == raw
    ensures IsNamed(r.value) <==> 1 <= raw <= 4
  {
    Some(Kind(raw))
  }

  /** Every kind is recovered from its raw value. */
  lemma KindRawRoundTrip(k: Kind)
    ensures KindFromRaw(k.rawValue) == Some(k)
  {
  }

  /** Keys of the change dictionary. */
  datatype ChangeKey = KindKey | NewKey | OldKey | IndexesKey | NotificationIsPriorKey

  type ChangeDictionary = map<ChangeKey, Obj>

  /** A typed change: what a change handler receives. */
  datatype Change<T> = Change(kind: Kind, oldValue: Optional<T>, newValue: Optional<T>)

  /** What one notification leads to: nothing, a trap that crashes the
      process, or a delivered value. */
  datatype Delivery<T> = Ignored | Crashed | Delivered(value: T)

  /** The kind of a change dictionary, read with `dict[KindKey] as! NSNumber`
      and `NSKeyValueChange(rawValue: number.unsignedLongValue)!`. `None`
      means the forced cast traps: the key is absent or holds no number. Any
      number gives a kind, named or not. Foundation's `unsignedLongValue`
      accessor is a parameter. */
  function KindOf(dict: ChangeDictionary, unsignedLongValue: Number -> UInt): (r: Optional<Kind>)
    ensures r.Some? <==> KindKey in dict && AsNumber(dict[KindKey]).Some?
    ensures r.Some? ==> r.value.rawValue == unsignedLongValue(AsNumber(dict[KindKey]).value)
  {
    if KindKey !in dict then None
    else
      match AsNumber(dict[KindKey])
      case None => None
      case Some(n) => Some(KindFromRaw(unsignedLongValue(n)).value)
  }

  /** `dict[key] as? Type`: `nil` when the key is absent or the cast fails. */
  function Lookup<T>(dict: ChangeDictionary, key: ChangeKey, cast: Obj -> Optional<T>): (r: Optional<T>)
    ensures key !in dict ==> r.None?
    ensures key in dict ==> r == cast(dict[key])
  {
    if key in dict then cast(dict[key]) else None
  }

  /** `observeValueForKeyPath`: a `nil` dictionary produces no callback; a
      dictionary whose kind is absent or not a number traps; otherwise `didObserveChange` gets
      the kind and the old and new values cast to the observed base type. */
  function ObserveValue<T>(change: Optional<ChangeDictionary>, unsignedLongValue: Number -> UInt,
                           cast: Obj -> Optional<T>): (r: Delivery<Change<T>>)
    ensures r.Ignored? <==> change.None?
    ensures r.Crashed? <==> change.Some? && KindOf(change.value, unsignedLongValue).None?
    ensures r.Delivered? ==>
      && r.value.kind == KindOf(change.value, unsignedLongValue).value
      && r.value.oldValue == Lookup(change.value, OldKey, cast)
      && r.value.newValue == Lookup(change.value, NewKey, cast)
  {
    match change
    case None => Ignored
    case Some(dict) =>
      match KindOf(dict, unsignedLongValue)
      case None => Crashed
      case Some(kind) => Delivered(Change(kind, Lookup(dict, OldKey, cast), Lookup(dict, NewKey, cast)))
  }

  /** A kind number that names no `NSKeyValueChange` case is not a trap: it
      reaches `didObserveChange` as an unnamed kind. */
  lemma UnnamedKindIsDelivered<T>(n: Number, unsignedLongValue: Number -> UInt, cast: Obj -> Optional<T>)
    requires unsignedLongValue(n) == 5
    ensures var r := ObserveValue(Some(map[KindKey := Boxed(NumberValue(n))]), unsignedLongValue, cast);
      r == Delivered(Change(Kind(5), None, None)) && !IsNamed(r.value.kind)
  {
  }

  // ---------------------------------------------------------------------
  // The host side: what a change dictionary holds

  /** The number the host boxes kind `k` in reads back as `k`'s raw value
      (an `NSNumber` made from a `UInt` returns it from `unsignedLongValue`). */
  predicate KindNumberRead(kindNumber: Kind -> Number, unsignedLongValue: Number -> UInt, k: Kind) {
    unsignedLongValue(kindNumber(k)) == k.rawValue
  }

  /** The dictionary the host sends for a change: the kind as a number, the
      old value only when `Old` was requested and there is one, and likewise
      the new value. */
  function HostChange(requestsOld: bool, requestsNew: bool, c: Change<Obj>, kindNumber: Kind -> Number): (d: ChangeDictionary)
    ensures KindKey in d && d[KindKey] == Boxed(NumberValue(kindNumber(c.kind)))
    ensures OldKey in d <==> requestsOld && c.oldValue.Some?
    ensures NewKey in d <==> requestsNew && c.newValue.Some?
    ensures OldKey in d ==> d[OldKey] == c.oldValue.value
    ensures NewKey in d ==> d[NewKey] == c.newValue.value
  {
    var withKind := map[KindKey := Boxed(NumberValue(kindNumber(c.kind)))];
    var withOld := if requestsOld && c.oldValue.Some? then withKind[OldKey := c.oldValue.value] else withKind;
    if requestsNew && c.newValue.Some? then withOld[NewKey := c.newValue.value] else withOld
  }

  /** `as?` applied to a value that may be missing. */
  function CastOptional<T>(o: Optional<Obj>, cast: Obj -> Optional<T>): (r: Optional<T>)
    ensures o.None? ==> r.None?
    ensures o.Some? ==> r == cast(o.value)
  {
    match o
    case None => None
    case Some(x) => cast(x)
  }

  /** Decoding what the host sends gives back the change's kind, and each
      value the options asked for, cast to the base type; values not asked
      for arrive as `nil`. */
  lemma DecodeHostChange<T>(requestsOld: bool, requestsNew: bool, c: Change<Obj>, kindNumber: Kind -> Number,
                            unsignedLongValue: Number -> UInt, cast: Obj -> Optional<T>)
    requires KindNumberRead(kindNumber, unsignedLongValue, c.kind)
    ensures ObserveValue(Some(HostChange(requestsOld, requestsNew, c, kindNumber)), unsignedLongValue, cast)
         == Delivered(Change(c.kind,
                             if requestsOld then CastOptional(c.oldValue, cast) else None,
                             if requestsNew then CastOptional(c.newValue, cast) else None))
  {
    var d := HostChange(requestsOld, requestsNew, c, kindNumber);
    assert AsNumber(d[KindKey]) == Some(kindNumber(c.kind));
    KindRawRoundTrip(c.kind);
  }

  // ---------------------------------------------------------------------
  // The four `didObserveChange` variants

  /** `KeyValueNumberObserver`: each number goes through the target type's
      `init?(_ optionalNumber:)`; the kind passes through. */
  function DidObserveNumberChange<T>(nc: NumberWrappable.Conformance<T>, c: Change<Number>): (r: Change<T>)
    ensures r.kind == c.kind
    ensures r.oldValue.None? <==> c.oldValue.None?
    ensures r.newValue.None? <==> c.newValue.None?
    ensures c.oldValue.Some? ==> r.oldValue.value == nc.fromNumber(c.oldValue.value)
    ensures c.newValue.Some? ==> r.newValue.value == nc.fromNumber(c.newValue.value)
  {
    Change(c.kind, NumberWrappable.OptionalFromNumber(nc, c.oldValue), NumberWrappable.OptionalFromNumber(nc, c.newValue))
  }

  /** Numbers boxed from values of a round-tripping number type decode back
      to those values. */
  lemma NumberChangeRoundTrip<T(!new)>(nc: NumberWrappable.Conformance<T>, c: Change<T>)
    requires NumberWrappable.RoundTrips(nc)
    ensures DidObserveNumberChange(nc, Change(c.kind, c.oldValue.Map(nc.toNumber), c.newValue.Map(nc.toNumber))) == c
  {
  }

  /** A `RawRepresentable` type: `init?(rawValue:)` and `rawValue`. */
  datatype RawRepresentable<!R, !E> = RawRepresentable(fromRaw: R -> Optional<E>, toRaw: E -> R)

  /** Every case is recovered from its raw value. */
  ghost predicate RawRoundTrips<R, E(!new)>(rr: RawRepresentable<R, E>) {
    forall e :: rr.fromRaw(rr.toRaw(e)) == Some(e)
  }

  /** One value of `KeyValueEnumObserver`: `nil` for a `nil` number, otherwise
      the case whose raw value the number holds, `nil` if there is none. */
  function DecodeEnum<R, E>(nc: NumberWrappable.Conformance<R>, rr: RawRepresentable<R, E>, n: Optional<Number>): (r: Optional<E>)
    ensures n.None? ==> r.None?
    ensures n.Some? ==> r == rr.fromRaw(nc.fromNumber(n.value))
  {
    match NumberWrappable.OptionalFromNumber(nc, n)
    case None => None
    case Some(raw) => rr.fromRaw(raw)
  }

  /** `KeyValueEnumObserver`: both values decoded as enum cases; the kind
      passes through. */
  function DidObserveEnumChange<R, E>(nc: NumberWrappable.Conformance<R>, rr: RawRepresentable<R, E>, c: Change<Number>): (r: Change<E>)
    ensures r.kind == c.kind
    ensures r.oldValue == DecodeEnum(nc, rr, c.oldValue)
    ensures r.newValue == DecodeEnum(nc, rr, c.newValue)
  {
    Change(c.kind, DecodeEnum(nc, rr, c.oldValue), DecodeEnum(nc, rr, c.newValue))
  }

  /** The box of an enum case's raw value decodes back to that case. */
  lemma EnumRoundTrip<R(!new), E(!new)>(nc: NumberWrappable.Conformance<R>, rr: RawRepresentable<R, E>, e: E)
    requires NumberWrappable.RoundTrips(nc) && RawRoundTrips(rr)
    ensures DecodeEnum(nc, rr, Some(nc.toNumber(rr.toRaw(e)))) == Some(e)
  {
  }

  /** A number whose raw value names no case decodes as `nil`, not a trap. */
  lemma EnumUnknownRawIsNil<R(!new), E>(nc: NumberWrappable.Conformance<R>, rr: RawRepresentable<R, E>, raw: R)
    requires NumberWrappable.RoundTrips(nc) && rr.fromRaw(raw).None?
    ensures DecodeEnum(nc, rr, Some(nc.toNumber(raw))).None?
  {
  }

  /** `KeyValueStructObserver`: each value goes through the target type's
      `init?(optionalValue:)`, the old one first; the kind passes through. */
  function DidObserveStructChange<T>(vc: ValueWrappable.Conformance<T>, c: Change<Value>): (r: Trapping<Change<T>>)
    ensures r.Trapped? <==>
      ValueWrappable.FailableFromValue(vc, c.oldValue).Trapped? || ValueWrappable.FailableFromValue(vc, c.newValue).Trapped?
    ensures r.Returns? ==>
      && r.result.kind == c.kind
      && Returns(r.result.oldValue) == ValueWrappable.FailableFromValue(vc, c.oldValue)
      && Returns(r.result.newValue) == ValueWrappable.FailableFromValue(vc, c.newValue)
  {
    match ValueWrappable.FailableFromValue(vc, c.oldValue)
    case Trapped => Trapped
    case Returns(oldValue) =>
      match ValueWrappable.FailableFromValue(vc, c.newValue)
      case Trapped => Trapped
      case Returns(newValue) => Returns(Change(c.kind, oldValue, newValue))
  }

  /** Boxes of values of a round-tripping struct type decode back to those
      values, and `nil` to `nil`. */
  lemma StructChangeRoundTrip<T(!new)>(vc: ValueWrappable.Conformance<T>, c: Change<T>)
    requires ValueWrappable.RoundTrips(vc)
    ensures DidObserveStructChange(vc, Change(c.kind, ValueWrappable.ToOptionalValue(vc, c.oldValue),
                                              ValueWrappable.ToOptionalValue(vc, c.newValue)))
         == Returns(c)
  {
    ValueWrappable.OptionalRoundTrip(vc, c.oldValue);
    ValueWrappable.OptionalRoundTrip(vc, c.newValue);
  }
}

=== FILE: decimals.dfy ===
/** The sign and ordering logic of the `NSDecimal` extensions: the five
    comparison operators over one three-way compare, the integer
    initializers that split a value into sign and magnitude, prefix minus and
    `isSignMinus`.

    Decimal arithmetic and the three-way compare itself belong to Foundation:
    the compare is a parameter, and the meaning of a decimal is given by the
    number it denotes (`ExactValue`). */
module Decimals {
  import opened Swift

  /** A one-bit field. */
  type Bit = b: nat | b <= 1

  /** `NSDecimal`, reduced to the fields this layer touches: the mantissa
      (Foundation keeps it in up to eight 16-bit words, `_length` of them in
      use, so `_length` is zero exactly when the mantissa is), `_exponent`
      and the one-bit `_isNegative`. */
  datatype Decimal = Decimal(mantissa: nat, exponent: int, isNegative: Bit)

  /** Foundation's encoding of NaN: no mantissa words and the sign bit set. */
  predicate IsNaN(d: Decimal) {
    d.mantissa == 0 && d.isNegative == 1
  }

  /** `isSignMinus`: the sign bit is set. A non-NaN decimal with the bit set
      is at most zero, and every negative one has it set. */
  function IsSignMinus(d: Decimal): (b: bool)
    ensures !IsNaN(d) && b ==> ExactValue(d) <= 0.0
    ensures !IsNaN(d) && ExactValue(d) < 0.0 ==> b
  {
    d.isNegative != 0
  }

  /** 10 raised to `e`, for any integer `e`. */
  function Pow10(e: int): (p: real)
    ensures p > 0.0
    decreases if e < 0 then -e else e
  {
    if e == 0 then 1.0
    else if e > 0 then 10.0 * Pow10(e - 1)
    else Pow10(e + 1) / 10.0
  }

  /** `mantissa` times 10 to the `exponent`. */
  function Scaled(mantissa: nat, exponent: int): (r: real)
    ensures r >= 0.0
  {
    mantissa as real * Pow10(exponent)
  }

  /** The number a (non-NaN) decimal denotes: sign, mantissa, power of ten. */
  function ExactValue(d: Decimal): real
    requires !IsNaN(d)
  {
    if d.isNegative == 1 then -Scaled(d.mantissa, d.exponent) else Scaled(d.mantissa, d.exponent)
  }

  /** `init(mantissa:exponent:isNegative:)`, which builds the decimal
      through `NSDecimalNumber`. A zero mantissa with the sign set is NaN. */
  function MakeDecimal(mantissa: int, exponent: int, isNegative: bool): (d: Decimal)
    requires IsUnsigned(W64, mantissa) && IsSigned(W16, exponent)
    ensures IsNaN(d) <==> mantissa == 0 && isNegative
    ensures !IsNaN(d) ==> ExactValue(d) == if isNegative then -Scaled(mantissa, exponent) else Scaled(mantissa, exponent)
    ensures IsSignMinus(d) == isNegative
  {
    var sign: Bit := if isNegative then 1 else 0;
    Decimal(mantissa, exponent, sign)
  }

  // ---------------------------------------------------------------------
  // Integer initializers

  /** `init(_ value: UInt8)`, `UInt16`, `UInt32`, `UInt64`, `UInt`: the value
      becomes the mantissa, exponent zero, non-negative. */
  function FromUnsigned(w: Width, value: int): (d: Decimal)
    requires IsUnsigned(w, value)
    ensures !IsNaN(d) && !IsSignMinus(d)
    ensures d.mantissa == value && d.exponent == 0
    ensures ExactValue(d) == value as real
  {
    UnsignedFitsUInt64(w, value);
    MakeDecimal(value, 0, false)
  }

  /** `init(_ value: Int8)`, `Int16`, `Int32`, `Int64`, `Int` as written: a
      negative value's magnitude is `-value`, computed in the value's own
      type, which traps for `T.min`. */
  function FromSignedAsWritten(w: Width, value: int): (r: Trapping<Decimal>)
    requires IsSigned(w, value)
    ensures r.Trapped? <==> value == SignedMin(w)
    ensures r.Returns? ==>
      && r.result.mantissa == (if value < 0 then -value else value)
      && r.result.exponent == 0
      && IsSignMinus(r.result) == (value < 0)
  {
    if value < 0 then
      match NarrowNegate(w, value)
      case Trapped => Trapped
      case Returns(magnitude) => Returns(MakeDecimal(magnitude, 0, true))
    else
      Returns(MakeDecimal(value, 0, false))
  }

  /** `NSDecimal(Int8.min)` traps instead of giving -128. */
  lemma Int8MinTraps()
    ensures FromSignedAsWritten(W8, -128) == Trapped
  {
  }

  /** The signed initializers with the magnitude computed without leaving
      the value's type: `-(value + 1)` always fits, and the final `+ 1`
      happens in the `UInt64` mantissa. */
  function FromSigned(w: Width, value: int): (d: Decimal)
    requires IsSigned(w, value)
    ensures !IsNaN(d)
    ensures d.mantissa == (if value < 0 then -value else value) && d.exponent == 0
    ensures IsSignMinus(d) <==> value < 0
    ensures ExactValue(d) == value as real
  {
    if value < 0 then
      MakeDecimal(NarrowNegate(w, value + 1).result + 1, 0, true)
    else
      MakeDecimal(value, 0, false)
  }

  /** The correction changes nothing but the trap at `T.min`. */
  lemma FromSignedAgreesBelowMin(w: Width, value: int)
    requires IsSigned(w, value) && value != SignedMin(w)
    ensures FromSignedAsWritten(w, value) == Returns(FromSigned(w, value))
  {
  }

  // ---------------------------------------------------------------------
  // Prefix minus

  /** Prefix `-` as written: flips the sign bit and nothing else, zero and
      NaN included. */
  function NegateAsWritten(x: Decimal): (r: Decimal)
    ensures IsSignMinus(r) == !IsSignMinus(x)
    ensures r.mantissa == x.mantissa && r.exponent == x.exponent
  {
    x.(isNegative := if IsSignMinus(x) then 0 else 1)
  }

  /** Applying prefix `-` twice gives the decimal back. */
  lemma NegateAsWrittenTwice(x: Decimal)
    ensures NegateAsWritten(NegateAsWritten(x)) == x
  {
  }

  /** Negating zero as written sets the sign bit on a zero-length mantissa,
      which is NaN; negating NaN gives zero. */
  lemma NegateAsWrittenZeroIsNaN()
    ensures !IsNaN(FromUnsigned(W8, 0)) && ExactValue(FromUnsigned(W8, 0)) == 0.0
    ensures IsNaN(NegateAsWritten(FromUnsigned(W8, 0)))
    ensures !IsNaN(NegateAsWritten(Decimal(0, 0, 1)))
  {
  }

  /** Prefix `-` that leaves zero-length decimals (zero and NaN) alone and
      flips the sign of every other one. */
  function Negate(x: Decimal): (r: Decimal)
    ensures IsNaN(r) <==> IsNaN(x)
    ensures !IsNaN(x) ==> ExactValue(r) == -ExactValue(x)
    ensures x.mantissa != 0 ==> IsSignMinus(r) == !IsSignMinus(x)
    ensures r.mantissa == x.mantissa && r.exponent == x.exponent
  {
    if x.mantissa == 0 then x
    else x.(isNegative := if IsSignMinus(x) then 0 else 1)
  }

  /** Negation is its own inverse. */
  lemma NegateTwice(x: Decimal)
    ensures Negate(Negate(x)) == x
  {
  }

  // ---------------------------------------------------------------------
  // Comparison

  /** `NSComparisonResult`. */
  datatype ComparisonResult = OrderedAscending | OrderedSame | OrderedDescending

  /** `NSDecimalCompare`, supplied by Foundation. */
  type Compare = (Decimal, Decimal) -> ComparisonResult

  /** `==` */
  predicate Equal(cmp: Compare, lhs: Decimal, rhs: Decimal) {
    cmp(lhs, rhs) == OrderedSame
  }

  /** `<` */
  predicate Less(cmp: Compare, lhs: Decimal, rhs: Decimal) {
    cmp(lhs, rhs) == OrderedAscending
  }

  /** `<=` */
  predicate LessOrEqual(cmp: Compare, lhs: Decimal, rhs: Decimal) {
    cmp(lhs, rhs) != OrderedDescending
  }

  /** `>=` */
  predicate GreaterOrEqual(cmp: Compare, lhs: Decimal, rhs: Decimal) {
    cmp(lhs, rhs) != OrderedAscending
  }

  /** `>` */
  predicate Greater(cmp: Compare, lhs: Decimal, rhs: Decimal) {
    cmp(lhs, rhs) == OrderedDescending
  }

  /** Whatever the compare, exactly one of `<`, `==`, `>` holds, and `<=`,
      `>=` are the expected disjunctions. */
  lemma OperatorsFromOneCompare(cmp: Compare, a: Decimal, b: Decimal)
    ensures LessOrEqual(cmp, a, b) <==> Less(cmp, a, b) || Equal(cmp, a, b)
    ensures GreaterOrEqual(cmp, a, b) <==> Greater(cmp, a, b) || Equal(cmp, a, b)
    ensures LessOrEqual(cmp, a, b) <==> !Greater(cmp, a, b)
    ensures GreaterOrEqual(cmp, a, b) <==> !Less(cmp, a, b)
    ensures Less(cmp, a, b) || Equal(cmp, a, b) || Greater(cmp, a, b)
    ensures !(Less(cmp, a, b) && Equal(cmp, a, b)) && !(Less(cmp, a, b) && Greater(cmp, a, b))
    ensures !(Equal(cmp, a, b) && Greater(cmp, a, b))
  {
  }

  /** The three-way answer for two numbers. */
  function CompareValues(x: real, y: real): (r: ComparisonResult)
    ensures r == OrderedAscending <==> x < y
    ensures r == OrderedSame <==> x == y
    ensures r == OrderedDescending <==> x > y
  {
    if x < y then OrderedAscending else if x == y then OrderedSame else OrderedDescending
  }

  /** A compare that orders non-NaN decimals by the numbers they denote. */
  ghost predicate ComparesByValue(cmp: Compare) {
    forall a, b :: !IsNaN(a) && !IsNaN(b) ==> cmp(a, b) == CompareValues(ExactValue(a), ExactValue(b))
  }

  /** Over a compare that orders by value, the five operators are the
      numeric relations. */
  lemma OperatorsByValue(cmp: Compare, a: Decimal, b: Decimal)
    requires ComparesByValue(cmp) && !IsNaN(a) && !IsNaN(b)
    ensures Equal(cmp, a, b) <==> ExactValue(a) == ExactValue(b)
    ensures Less(cmp, a, b) <==> ExactValue(a) < ExactValue(b)
    ensures LessOrEqual(cmp, a, b) <==> ExactValue(a) <= ExactValue(b)
    ensures GreaterOrEqual(cmp, a, b) <==> ExactValue(a) >= ExactValue(b)
    ensures Greater(cmp, a, b) <==> ExactValue(a) > ExactValue(b)
  {
  }

  /** `==` is numeric equality, not field equality: 10 and 1e1 are equal. */
  lemma EqualIsNumeric(cmp: Compare)
    requires ComparesByValue(cmp)
    ensures Equal(cmp, Decimal(10, 0, 0), Decimal(1, 1, 0))
    ensures Decimal(10, 0, 0) != Decimal(1, 1, 0)
  {
    var a, b := Decimal(10, 0, 0), Decimal(1, 1, 0);
    assert Pow10(1) == 10.0 * Pow10(0);
    assert ExactValue(a) == ExactValue(b);
  }

  /** The signed initializers preserve the integers' order and equality. */
  lemma FromSignedPreservesOrder(cmp: Compare, w: Width, x: int, y: int)
    requires ComparesByValue(cmp) && IsSigned(w, x) && IsSigned(w, y)
    ensures Less(cmp, FromSigned(w, x), FromSigned(w, y)) <==> x < y
    ensures Equal(cmp, FromSigned(w, x), FromSigned(w, y)) <==> x == y
    ensures LessOrEqual(cmp, FromSigned(w, x), FromSigned(w, y)) <==> x <= y
  {
    OperatorsByValue(cmp, FromSigned(w, x), FromSigned(w, y));
  }

  /** The unsigned initializers preserve the integers' order and equality. */
  lemma FromUnsignedPreservesOrder(cmp: Compare, w: Width, x: int, y: int)
    requires ComparesByValue(cmp) && IsUnsigned(w, x) && IsUnsigned(w, y)
    ensures Less(cmp, FromUnsigned(w, x), FromUnsigned(w, y)) <==> x < y
    ensures Equal(cmp, FromUnsigned(w, x), FromUnsigned(w, y)) <==> x == y
    ensures LessOrEqual(cmp, FromUnsigned(w, x), FromUnsigned(w, y)) <==> x <= y
  {
    OperatorsByValue(cmp, FromUnsigned(w, x), FromUnsigned(w, y));
  }

  /** Negation reverses the order of non-NaN decimals. */
  lemma NegateReversesOrder(cmp: Compare, a: Decimal, b: Decimal)
    requires ComparesByValue(cmp) && !IsNaN(a) && !IsNaN(b)
    ensures Less(cmp, Negate(a), Negate(b)) <==> Less(cmp, b, a)
    ensures Equal(cmp, Negate(a), Negate(b)) <==> Equal(cmp, a, b)
  {
    OperatorsByValue(cmp, Negate(a), Negate(b));
    OperatorsByValue(cmp, b, a);
    OperatorsByValue(cmp, a, b);
  }

  /** Over a compare that orders by value, `<=` is a total preorder on
      non-NaN decimals and `>` is `<` with the operands swapped. */
  lemma LessOrEqualIsTotalPreorder(cmp: Compare, a: Decimal, b: Decimal, c: Decimal)
    requires ComparesByValue(cmp) && !IsNaN(a) && !IsNaN(b) && !IsNaN(c)
    ensures LessOrEqual(cmp, a, a)
    ensures LessOrEqual(cmp, a, b) || LessOrEqual(cmp, b, a)
    ensures LessOrEqual(cmp, a, b) && LessOrEqual(cmp, b, c) ==> LessOrEqual(cmp, a, c)
    ensures LessOrEqual(cmp, a, b) && LessOrEqual(cmp, b, a) ==> Equal(cmp, a, b)
    ensures Greater(cmp, a, b) <==> Less(cmp, b, a)
  {
    OperatorsByValue(cmp, a, a);
    OperatorsByValue(cmp, a, b);
    OperatorsByValue(cmp, b, a);
    OperatorsByValue(cmp, b, c);
    OperatorsByValue(cmp, a, c);
  }
}

=== FILE: number_wrappable.dfy ===
/** `NSNumberWrappable`: a Swift type that can be boxed as an `NSNumber`,
    the `NSValueWrappable` members it gets by default, and its `nil`-lifting
    initializer. */
module NumberWrappable {
  import opened Swift
  import opened Boxes
  import ValueWrappable

  /** A conformance to `NSNumberWrappable`: the type's `init(_ number:)` and
      `toNSNumber()`. The accessors behind them (`intValue`, `charValue`, ...)
      belong to Foundation, so both are opaque functions here. */
  datatype Conformance<!T> = Conformance(fromNumber: Number -> T, toNumber: T -> Number)

  /** Unboxing undoes boxing for every value of the type. */
  ghost predicate RoundTrips<T(!new)>(c: Conformance<T>) {
    forall x :: c.fromNumber(c.toNumber(x)) == x
  }

  /** The default `toNSValue()`: the value's `NSNumber`, seen as an `NSValue`. */
  function ToValue<T>(c: Conformance<T>, x: T): (r: Value)
    ensures r.NumberValue? && r.number == c.toNumber(x)
  {
    NumberValue(c.toNumber(x))
  }

  /** The default `init(value:)`: the forced cast `value as! NSNumber` traps
      on any other box; a number is unboxed with `init(_ number:)`. */
  function FromValue<T>(c: Conformance<T>, v: Value): (r: Trapping<T>)
    ensures r.Trapped? <==> !v.NumberValue?
    ensures v.NumberValue? ==> r == Returns(c.fromNumber(v.number))
  {
    match v
    case NumberValue(n) => Returns(c.fromNumber(n))
    case StructValue(_) => Trapped
  }

  /** The `NSValueWrappable` conformance every number type gets from the
      defaults above. */
  function AsValueConformance<T(!new)>(c: Conformance<T>): (vc: ValueWrappable.Conformance<T>)
    ensures forall x :: vc.toValue(x) == NumberValue(c.toNumber(x))
    ensures forall v :: vc.fromValue(v) == FromValue(c, v)
  {
    ValueWrappable.Conformance(v => FromValue(c, v), x => ToValue(c, x))
  }

  /** A number type that round-trips through `NSNumber` round-trips through
      `NSValue` with the default members. */
  lemma DefaultsRoundTrip<T(!new)>(c: Conformance<T>)
    requires RoundTrips(c)
    ensures ValueWrappable.RoundTrips(AsValueConformance(c))
  {
    var vc := AsValueConformance(c);
    forall x
      ensures vc.fromValue(vc.toValue(x)) == Returns(x)
    {
      assert vc.toValue(x) == NumberValue(c.toNumber(x));
    }
  }

  /** The failable `init?(_ optionalNumber:)`: `nil` exactly for `nil`, and
      `init(_ number:)` of the number otherwise. */
  function OptionalFromNumber<T>(c: Conformance<T>, on: Optional<Number>): (r: Optional<T>)
    ensures r.None? <==> on.None?
    ensures on.Some? ==> r == Some(c.fromNumber(on.value))
  {
    match on
    case None => None
    case Some(n) => Some(c.fromNumber(n))
  }

  /** Boxing an optional number (`nil` to `nil`) and unboxing it with
      `init?(_ optionalNumber:)` gives the optional back. */
  lemma OptionalNumberRoundTrip<T(!new)>(c: Conformance<T>, o: Optional<T>)
    requires RoundTrips(c)
    ensures OptionalFromNumber(c, if o.Some? then Some(c.toNumber(o.value)) else None) == o
  {
  }
}

=== FILE: observer_lifecycle.dfy ===
/** The lifecycle of `KeyValueObjectObserverBase`: one `observing` flag that
    guards registration with the host's key-value observing registry.

    The host is modelled by the calls the observer makes on it, in order:
    setting or clearing the associated object that keeps the observer alive,
    and adding or removing the observer for its key path. Counts of
    registrations and removals, and whether the association is held, are
    read off that log. */
module ObserverLifecycle {

  /** `NSKeyValueObservingOptions` members. */
  datatype ObservingOption = Old | New | Initial | Prior

  /** One call from the observer into the host. */
  datatype HostCall =
    | SetAssociation(retained: bool)    // objc_setAssociatedObject with the observer (true) or nil (false)
    | AddObserver(keyPath: string, options: set<ObservingOption>)
    | RemoveObserver(keyPath: string)

  /** The observer's own state: what it observes, how, and whether it is
      currently registered. */
  datatype Observer = Observer(keyPath: string, options: set<ObservingOption>, observing: bool)

  /** An observer together with every call it has made on the host. */
  datatype World = World(observer: Observer, calls: seq<HostCall>)

  /** User-visible operations of the `KeyValueObserver` protocol that change
      state. */
  datatype Operation = Start | Stop

  /** `init(object:keyPath:options:)`: not observing, nothing asked of the
      host yet. */
  function Create(keyPath: string, options: set<ObservingOption>): (w: World)
    ensures !IsObserving(w) && w.calls == []
    ensures w.observer.keyPath == keyPath && w.observer.options == options
  {
    World(Observer(keyPath, options, false), [])
  }

  /** `isObserving()`. */
  function IsObserving(w: World): bool {
    w.observer.observing
  }

  /** `startObserving()`: a no-op while observing; otherwise retain the
      observer through the association, register for the stored key path
      and options, and raise the flag. */
  function StartObserving(w: World): (r: World)
    ensures IsObserving(r)
    ensures r.observer.keyPath == w.observer.keyPath && r.observer.options == w.observer.options
    ensures w.calls <= r.calls
    ensures IsObserving(w) ==> r == w
  {
    if w.observer.observing then w
    else
      World(w.observer.(observing := true),
            w.calls + [SetAssociation(true), AddObserver(w.observer.keyPath, w.observer.options)])
  }

  /** `stopObserving()`: a no-op while not observing; otherwise unregister,
      drop the association and lower the flag. */
  function StopObserving(w: World): (r: World)
    ensures !IsObserving(r)
    ensures r.observer.keyPath == w.observer.keyPath && r.observer.options == w.observer.options
    ensures w.calls <= r.calls
    ensures !IsObserving(w) ==> r == w
  {
    if !w.observer.observing then w
    else
      World(w.observer.(observing := false),
            w.calls + [RemoveObserver(w.observer.keyPath), SetAssociation(false)])
  }

  /** `deinit`: stops observing. */
  function Deinit(w: World): (r: World)
    ensures !IsObserving(r)
    ensures r.observer.keyPath == w.observer.keyPath && r.observer.options == w.observer.options
    ensures w.calls <= r.calls
  {
    StopObserving(w)
  }

  function Apply(w: World, op: Operation): World {
    match op
    case Start => StartObserving(w)
    case Stop => StopObserving(w)
  }

  // ---------------------------------------------------------------------
  // Reading the host's state off the call log

  /** Number of `addObserver` calls. */
  function Registrations(calls: seq<HostCall>): nat {
    if calls == [] then 0
    else Registrations(calls[..|calls| - 1]) + (if calls[|calls| - 1].AddObserver? then 1 else 0)
  }

  /** Number of `removeObserver` calls. */
  function Unregistrations(calls: seq<HostCall>): nat {
    if calls == [] then 0
    else Unregistrations(calls[..|calls| - 1]) + (if calls[|calls| - 1].RemoveObserver? then 1 else 0)
  }

  /** Registrations still outstanding at the host. */
  function Balance(calls: seq<HostCall>): int {
    Registrations(calls) - Unregistrations(calls)
  }

  /** Whether the host currently holds the association: the last association
      call decides, and there is none at first. */
  function Associated(calls: seq<HostCall>): bool {
    if calls == [] then false
    else if calls[|calls| - 1].SetAssociation? then calls[|calls| - 1].retained
    else Associated(calls[..|calls| - 1])
  }

  /** At every point of the log, at most one registration was outstanding
      and no removal came without a registration before it. */
  ghost predicate NeverOverBalanced(calls: seq<HostCall>) {
    forall i :: 0 <= i <= |calls| ==> 0 <= Balance(calls[..i]) <= 1
  }

  /** A call made for this observer uses its key path (and options). */
  predicate MadeFor(call: HostCall, o: Observer) {
    match call
    case SetAssociation(_) => true
    case AddObserver(k, opts) => k == o.keyPath && opts == o.options
    case RemoveObserver(k) => k == o.keyPath
  }

  /** The lifecycle invariant: the flag, the outstanding registrations and
      the association agree, and the log never went over balance. */
  ghost predicate Consistent(w: World) {
    && Balance(w.calls) == (if IsObserving(w) then 1 else 0)
    && Associated(w.calls) == IsObserving(w)
    && NeverOverBalanced(w.calls)
    && forall i :: 0 <= i < |w.calls| ==> MadeFor(w.calls[i], w.observer)
  }

  // ---------------------------------------------------------------------
  // Counting over appended calls

  lemma {:induction false} CountsAppend(a: seq<HostCall>, b: seq<HostCall>)
    ensures Registrations(a + b) == Registrations(a) + Registrations(b)
    ensures Unregistrations(a + b) == Unregistrations(a) + Unregistrations(b)
    decreases |b|
  {
    if b == [] {
      assert a + b == a;
    } else {
      var b' := b[..|b| - 1];
      assert (a + b)[..|a + b| - 1] == a + b';
      CountsAppend(a, b');
    }
  }

  lemma {:induction false} AssociatedAppend(a: seq<HostCall>, b: seq<HostCall>)
    requires forall i :: 0 <= i < |b| ==> !b[i].SetAssociation?
    ensures Associated(a + b) == Associated(a)
    decreases |b|
  {
    if b == [] {
      assert a + b == a;
    } else {
      var b' := b[..|b| - 1];
      assert (a + b)[..|a + b| - 1] == a + b';
      AssociatedAppend(a, b');
    }
  }

  lemma CountsOfPair(x: HostCall, y: HostCall)
    ensures Registrations([x, y]) == (if x.AddObserver? then 1 else 0) + (if y.AddObserver? then 1 else 0)
    ensures Unregistrations([x, y]) == (if x.RemoveObserver? then 1 else 0) + (if y.RemoveObserver? then 1 else 0)
  {
    var s := [x, y];
    assert s[..|s| - 1] == [x];
    assert [x][..0] == [];
    assert Registrations([x]) == (if x.AddObserver? then 1 else 0);
    assert Unregistrations([x]) == (if x.RemoveObserver? then 1 else 0);
  }

  /** How one call moves the balance of outstanding registrations. */
  function Delta(call: HostCall): int {
    if call.AddObserver? then 1 else if call.RemoveObserver? then -1 else 0
  }

  /** The balance after appending one call, and after appending two. */
  lemma BalanceOfPair(a: seq<HostCall>, x: HostCall, y: HostCall)
    ensures Balance(a + [x]) == Balance(a) + Delta(x)
    ensures Balance(a + [x, y]) == Balance(a) + Delta(x) + Delta(y)
  {
    CountsAppend(a, [x]);
    CountsAppend(a, [x, y]);
    CountsOfPair(x, y);
    assert [x][..0] == [];
  }

  /** Calls made for an observer stay made for it after a pair of calls for
      an observer with the same key path and options is appended. */
  lemma MadeForAppend(a: seq<HostCall>, x: HostCall, y: HostCall, o: Observer, o': Observer)
    requires forall i :: 0 <= i < |a| ==> MadeFor(a[i], o)
    requires MadeFor(x, o') && MadeFor(y, o')
    requires o'.keyPath == o.keyPath && o'.options == o.options
    ensures forall i :: 0 <= i < |a + [x, y]| ==> MadeFor((a + [x, y])[i], o')
  {
    var c := a + [x, y];
    forall i | 0 <= i < |c|
      ensures MadeFor(c[i], o')
    {
      if i < |a| {
        assert c[i] == a[i];
        assert MadeFor(a[i], o);
      }
    }
  }

  /** Appending a pair of calls whose partial balances stay in range keeps
      the log within balance. */
  lemma AppendPairKeepsBalance(a: seq<HostCall>, x: HostCall, y: HostCall)
    requires NeverOverBalanced(a)
    requires 0 <= Balance(a + [x]) <= 1 && 0 <= Balance(a + [x, y]) <= 1
    ensures NeverOverBalanced(a + [x, y])
  {
    var c := a + [x, y];
    forall i | 0 <= i <= |c|
      ensures 0 <= Balance(c[..i]) <= 1
    {
      if i <= |a| {
        assert c[..i] == a[..i];
      } else if i == |a| + 1 {
        assert c[..i] == a + [x];
      } else {
        assert c[..i] == c;
      }
    }
  }

  // ---------------------------------------------------------------------
  // One call at a time

  /** `startObserving()` while observing changes nothing. */
  lemma StartWhileObservingIsNoOp(w: World)
    requires IsObserving(w)
    ensures StartObserving(w) == w
  {
  }

  /** `startObserving()` from idle sets the association, registers exactly
      once with the stored key path and options (in that order), and raises
      the flag; nothing else changes. */
  lemma StartFromIdle(w: World)
    requires !IsObserving(w)
    ensures var w' := StartObserving(w);
      && IsObserving(w')
      && w'.observer.keyPath == w.observer.keyPath && w'.observer.options == w.observer.options
      && w'.calls == w.calls + [SetAssociation(true), AddObserver(w.observer.keyPath, w.observer.options)]
      && Registrations(w'.calls) == Registrations(w.calls) + 1
      && Unregistrations(w'.calls) == Unregistrations(w.calls)
      && Associated(w'.calls)
  {
    var e := [SetAssociation(true), AddObserver(w.observer.keyPath, w.observer.options)];
    CountsAppend(w.calls, e);
    CountsOfPair(e[0], e[1]);
  }

  /** `stopObserving()` while not observing changes nothing. */
  lemma StopWhileIdleIsNoOp(w: World)
    requires !IsObserving(w)
    ensures StopObserving(w) == w
  {
  }

  /** Stopping twice is stopping once. */
  lemma StopIsIdempotent(w: World)
    ensures StopObserving(StopObserving(w)) == StopObserving(w)
    ensures !IsObserving(StopObserving(w))
  {
  }

  /** `stopObserving()` while observing unregisters exactly once, then
      clears the association and lowers the flag; nothing else changes. */
  lemma StopFromObserving(w: World)
    requires IsObserving(w)
    ensures var w' := StopObserving(w);
      && !IsObserving(w')
      && w'.observer.keyPath == w.observer.keyPath && w'.observer.options == w.observer.options
      && w'.calls == w.calls + [RemoveObserver(w.observer.keyPath), SetAssociation(false)]
      && Registrations(w'.calls) == Registrations(w.calls)
      && Unregistrations(w'.calls) == Unregistrations(w.calls) + 1
      && !Associated(w'.calls)
  {
    var e := [RemoveObserver(w.observer.keyPath), SetAssociation(false)];
    CountsAppend(w.calls, e);
    CountsOfPair(e[0], e[1]);
  }

  lemma CreateIsConsistent(keyPath: string, options: set<ObservingOption>)
    ensures Consistent(Create(keyPath, options))
  {
    var w := Create(keyPath, options);
    assert forall i :: 0 <= i <= 0 ==> w.calls[..i] == [];
  }

  /** `startObserving()` from idle keeps the invariant: the balance goes
      from 0 to 1 through the association call, and the registration that
      follows it leaves the association held. */
  lemma StartKeepsConsistent(w: World)
    requires Consistent(w) && !IsObserving(w)
    ensures Consistent(StartObserving(w))
  {
    var x := SetAssociation(true);
    var y := AddObserver(w.observer.keyPath, w.observer.options);
    var w' := StartObserving(w);
    assert w'.calls == w.calls + [x, y];
    BalanceOfPair(w.calls, x, y);
    AppendPairKeepsBalance(w.calls, x, y);
    assert (w.calls + [x]) + [y] == w.calls + [x, y];
    AssociatedAppend(w.calls + [x], [y]);
    assert (w.calls + [x])[..|w.calls + [x]| - 1] == w.calls;
    MadeForAppend(w.calls, x, y, w.observer, w'.observer);
  }

  /** `stopObserving()` from observing keeps the invariant: the removal takes
      the balance from 1 to 0, and the last call clears the association. */
  lemma StopKeepsConsistent(w: World)
    requires Consistent(w) && IsObserving(w)
    ensures Consistent(StopObserving(w))
  {
    var x := RemoveObserver(w.observer.keyPath);
    var y := SetAssociation(false);
    var w' := StopObserving(w);
    assert w'.calls == w.calls + [x, y];
    BalanceOfPair(w.calls, x, y);
    AppendPairKeepsBalance(w.calls, x, y);
    MadeForAppend(w.calls, x, y, w.observer, w'.observer);
  }

  /** Both operations keep the lifecycle invariant. */
  lemma ApplyKeepsConsistent(w: World, op: Operation)
    requires Consistent(w)
    ensures Consistent(Apply(w, op))
    ensures Apply(w, op).observer.keyPath == w.observer.keyPath
    ensures Apply(w, op).observer.options == w.observer.options
  {
    match op
    case Start =>
      if !IsObserving(w) {
        StartKeepsConsistent(w);
      }
    case Stop =>
      if IsObserving(w) {
        StopKeepsConsistent(w);
      }
  }

  /** Any sequence of starts and stops, in any order, keeps the invariant. */
  function Run(w: World, ops: seq<Operation>): (r: World)
    requires Consistent(w)
    ensures Consistent(r)
    ensures r.observer.keyPath == w.observer.keyPath && r.observer.options == w.observer.options
    decreases |ops|
  {
    if ops == [] then w
    else
      ApplyKeepsConsistent(w, ops[0]);
      Run(Apply(w, ops[0]), ops[1..])
  }

  /** Under the invariant, `isObserving()` is true exactly when one
      registration is outstanding, and otherwise none is. */
  lemma ObservingIffRegistered(w: World)
    requires Consistent(w)
    ensures IsObserving(w) <==> Balance(w.calls) == 1
    ensures !IsObserving(w) <==> Balance(w.calls) == 0
  {
  }

  /** `deinit` always leaves no registration outstanding and no association
      held, and keeps the invariant. */
  lemma DeinitUnregisters(w: World)
    requires Consistent(w)
    ensures Balance(Deinit(w).calls) == 0
    ensures !Associated(Deinit(w).calls)
    ensures Consistent(Deinit(w))
  {
    ApplyKeepsConsistent(w, Stop);
  }

  /** Whatever starts and stops a user issues on a fresh observer, followed
      by its `deinit`, every registration is matched by exactly one removal
      and no removal ever precedes its registration. */
  lemma EveryRegistrationBalanced(keyPath: string, options: set<ObservingOption>, ops: seq<Operation>)
    ensures var w := Deinit(Run(Create(keyPath, options), ops));
      && Registrations(w.calls) == Unregistrations(w.calls)
      && NeverOverBalanced(w.calls)
      && (forall i :: 0 <= i < |w.calls| && w.calls[i].AddObserver? ==> w.calls[i] == AddObserver(keyPath, options))
  {
    CreateIsConsistent(keyPath, options);
    var r := Run(Create(keyPath, options), ops);
    DeinitUnregisters(r);
    var w := Deinit(r);
    forall i | 0 <= i < |w.calls| && w.calls[i].AddObserver?
      ensures w.calls[i] == AddObserver(keyPath, options)
    {
      assert MadeFor(w.calls[i], w.observer);
    }
  }
}

=== FILE: registration.dfy ===
/** The `addObserver` overloads on `NSObject`: each picks the observing
    options, the decoding for the requested value type, adapts the user's
    handler, starts observing and hands the observer back. Also the path of
    one notification from the host to the user's handler. */
module Registration {
  import opened Swift
  import opened Boxes
  import opened ObserverLifecycle
  import opened ChangeDecoding
  import NumberWrappable
  import ValueWrappable

  /** A change handler `(kind, oldValue, newValue) -> Void`; what calling it
      does is represented by the value it returns. */
  type Handler<!T, R> = (Kind, Optional<T>, Optional<T>) -> R

  /** What `addObserver` returns: the observer's lifecycle state, how it
      casts host objects to its base type `B`, how `didObserveChange`
      converts base values to the user's type `T`, and the installed
      handler. */
  datatype Subscription<!B, !T, R> = Subscription(
    world: World,
    cast: Obj -> Optional<B>,
    decode: Change<B> -> Trapping<Change<T>>,
    handler: Handler<T, R>)

  /** The state every overload leaves its observer in: registered once for
      the key path with the given options, association held, observing. */
  ghost predicate Started<B, T, R>(s: Subscription<B, T, R>, keyPath: string, options: set<ObservingOption>) {
    && IsObserving(s.world)
    && Consistent(s.world)
    && s.world.observer.keyPath == keyPath
    && s.world.observer.options == options
    && s.world.calls == [SetAssociation(true), AddObserver(keyPath, options)]
  }

  /** Create the observer, install the handler, `startObserving()`. */
  function Subscribe<B, T, R>(keyPath: string, options: set<ObservingOption>, cast: Obj -> Optional<B>,
                              decode: Change<B> -> Trapping<Change<T>>, handler: Handler<T, R>): (s: Subscription<B, T, R>)
    ensures Started(s, keyPath, options)
    ensures s.cast == cast && s.decode == decode && s.handler == handler
  {
    CreateIsConsistent(keyPath, options);
    ApplyKeepsConsistent(Create(keyPath, options), Start);
    StartFromIdle(Create(keyPath, options));
    Subscription(StartObserving(Create(keyPath, options)), cast, decode, handler)
  }

  // ---------------------------------------------------------------------
  // The overloads

  /** Generic `addObserver(_:handler: () -> Void)`: no options, any object,
      and a handler that ignores kind and values. */
  function AddAnyObserver<R>(keyPath: string, handler: () -> R): (s: Subscription<Obj, Obj, R>)
    ensures Started(s, keyPath, {})
    ensures forall o :: s.cast(o) == Some(o)
    ensures forall c :: s.decode(c) == Returns(c)
    ensures forall k, o, n :: s.handler(k, o, n) == handler()
  {
    Subscribe(keyPath, {}, AsObject, c => Returns(c), (k, o, n) => handler())
  }

  /** Advanced struct overload: old and new values, handler installed as is. */
  function AddStructObserver<T(!new), R>(keyPath: string, vc: ValueWrappable.Conformance<T>, handler: Handler<T, R>)
    : (s: Subscription<Value, T, R>)
    ensures Started(s, keyPath, {Old, New})
    ensures forall o :: s.cast(o) == AsValue(o)
    ensures forall c :: s.decode(c) == DidObserveStructChange(vc, c)
    ensures s.handler == handler
  {
    Subscribe(keyPath, {Old, New}, AsValue, c => DidObserveStructChange(vc, c), handler)
  }

  /** Simple struct overload: new values only, handed to the user alone. */
  function AddSimpleStructObserver<T(!new), R>(keyPath: string, vc: ValueWrappable.Conformance<T>, handler: Optional<T> -> R)
    : (s: Subscription<Value, T, R>)
    ensures Started(s, keyPath, {New})
    ensures forall o :: s.cast(o) == AsValue(o)
    ensures forall c :: s.decode(c) == DidObserveStructChange(vc, c)
    ensures forall k, o, n :: s.handler(k, o, n) == handler(n)
  {
    Subscribe(keyPath, {New}, AsValue, c => DidObserveStructChange(vc, c), (k, o, n) => handler(n))
  }

  /** Advanced number overload. */
  function AddNumberObserver<T(!new), R>(keyPath: string, nc: NumberWrappable.Conformance<T>, handler: Handler<T, R>)
    : (s: Subscription<Number, T, R>)
    ensures Started(s, keyPath, {Old, New})
    ensures forall o :: s.cast(o) == AsNumber(o)
    ensures forall c :: s.decode(c) == Returns(DidObserveNumberChange(nc, c))
    ensures s.handler == handler
  {
    Subscribe(keyPath, {Old, New}, AsNumber, c => Returns(DidObserveNumberChange(nc, c)), handler)
  }

  /** Simple number overload. */
  function AddSimpleNumberObserver<T(!new), R>(keyPath: string, nc: NumberWrappable.Conformance<T>, handler: Optional<T> -> R)
    : (s: Subscription<Number, T, R>)
    ensures Started(s, keyPath, {New})
    ensures forall o :: s.cast(o) == AsNumber(o)
    ensures forall c :: s.decode(c) == Returns(DidObserveNumberChange(nc, c))
    ensures forall k, o, n :: s.handler(k, o, n) == handler(n)
  {
    Subscribe(keyPath, {New}, AsNumber, c => Returns(DidObserveNumberChange(nc, c)), (k, o, n) => handler(n))
  }

  /** Advanced object overload; `cast` is `as? Type` for the requested
      class. */
  function AddObjectObserver<T(!new), R>(keyPath: string, cast: Obj -> Optional<T>, handler: Handler<T, R>)
    : (s: Subscription<T, T, R>)
    ensures Started(s, keyPath, {Old, New})
    ensures forall o :: s.cast(o) == cast(o)
    ensures forall c :: s.decode(c) == Returns(c)
    ensures s.handler == handler
  {
    Subscribe(keyPath, {Old, New}, cast, c => Returns(c), handler)
  }

  /** Simple object overload. */
  function AddSimpleObjectObserver<T(!new), R>(keyPath: string, cast: Obj -> Optional<T>, handler: Optional<T> -> R)
    : (s: Subscription<T, T, R>)
    ensures Started(s, keyPath, {New})
    ensures forall o :: s.cast(o) == cast(o)
    ensures forall c :: s.decode(c) == Returns(c)
    ensures forall k, o, n :: s.handler(k, o, n) == handler(n)
  {
    Subscribe(keyPath, {New}, cast, c => Returns(c), (k, o, n) => handler(n))
  }

  /** Advanced enum overload. */
  function AddEnumObserver<Raw, E(!new), R>(keyPath: string, nc: NumberWrappable.Conformance<Raw>, rr: RawRepresentable<Raw, E>,
                                      handler: Handler<E, R>): (s: Subscription<Number, E, R>)
    ensures Started(s, keyPath, {Old, New})
    ensures forall o :: s.cast(o) == AsNumber(o)
    ensures forall c :: s.decode(c) == Returns(DidObserveEnumChange(nc, rr, c))
    ensures s.handler == handler
  {
    Subscribe(keyPath, {Old, New}, AsNumber, c => Returns(DidObserveEnumChange(nc, rr, c)), handler)
  }

  /** Simple enum overload. */
  function AddSimpleEnumObserver<Raw, E(!new), R>(keyPath: string, nc: NumberWrappable.Conformance<Raw>, rr: RawRepresentable<Raw, E>,
                                            handler: Optional<E> -> R): (s: Subscription<Number, E, R>)
    ensures Started(s, keyPath, {New})
    ensures forall o :: s.cast(o) == AsNumber(o)
    ensures forall c :: s.decode(c) == Returns(DidObserveEnumChange(nc, rr, c))
    ensures forall k, o, n :: s.handler(k, o, n) == handler(n)
  {
    Subscribe(keyPath, {New}, AsNumber, c => Returns(DidObserveEnumChange(nc, rr, c)), (k, o, n) => handler(n))
  }

  // ---------------------------------------------------------------------
  // One notification

  /** A notification reaching the observer: `observeValueForKeyPath` decodes
      the dictionary, `didObserveChange` converts the values, the handler is
      called once. A trap at either step crashes. */
  function Notify<B, T, R>(s: Subscription<B, T, R>, change: Optional<ChangeDictionary>,
                           unsignedLongValue: Number -> UInt): (r: Delivery<R>)
    ensures r.Ignored? <==> change.None?
    ensures var base := ObserveValue(change, unsignedLongValue, s.cast);
      r.Crashed? <==> base.Crashed? || (base.Delivered? && s.decode(base.value).Trapped?)
    ensures var base := ObserveValue(change, unsignedLongValue, s.cast);
      r.Delivered? <==> base.Delivered? && s.decode(base.value).Returns?
    ensures r.Delivered? ==>
      var base := ObserveValue(change, unsignedLongValue, s.cast);
      && base.Delivered?
      && s.decode(base.value).Returns?
      && r.value == s.handler(s.decode(base.value).result.kind, s.decode(base.value).result.oldValue,
                              s.decode(base.value).result.newValue)
  {
    match ObserveValue(change, unsignedLongValue, s.cast)
    case Ignored => Ignored
    case Crashed => Crashed
    case Delivered(c) =>
      match s.decode(c)
      case Trapped => Crashed
      case Returns(t) => Delivered(s.handler(t.kind, t.oldValue, t.newValue))
  }

  /** The host sends a notification only while it holds a registration for
      the observer. */
  function HostDeliver<B, T, R>(s: Subscription<B, T, R>, change: Optional<ChangeDictionary>,
                                unsignedLongValue: Number -> UInt): (r: Delivery<R>)
    ensures Balance(s.world.calls) <= 0 ==> r.Ignored?
    ensures Balance(s.world.calls) > 0 ==> r == Notify(s, change, unsignedLongValue)
  {
    if Balance(s.world.calls) > 0 then Notify(s, change, unsignedLongValue) else Ignored
  }

  /** The dictionary the host sends this observer for a change, given the
      options it registered with. */
  function HostNotification<B, T, R>(s: Subscription<B, T, R>, c: Change<Obj>, kindNumber: Kind -> Number)
    : Optional<ChangeDictionary>
  {
    Some(HostChange(Old in s.world.observer.options, New in s.world.observer.options, c, kindNumber))
  }

  /** After `stopObserving()` (or `deinit`) no notification reaches the
      handler, whatever the host would send. */
  lemma NothingDeliveredAfterStop<B, T, R>(s: Subscription<B, T, R>, change: Optional<ChangeDictionary>,
                                           unsignedLongValue: Number -> UInt)
    requires Consistent(s.world)
    ensures HostDeliver(s.(world := StopObserving(s.world)), change, unsignedLongValue).Ignored?
  {
    DeinitUnregisters(s.world);
  }

  /** A started observer receives what the host sends. */
  lemma StartedObserverIsNotified<B, T, R>(s: Subscription<B, T, R>, keyPath: string, options: set<ObservingOption>,
                                           change: Optional<ChangeDictionary>, unsignedLongValue: Number -> UInt)
    requires Started(s, keyPath, options)
    ensures HostDeliver(s, change, unsignedLongValue) == Notify(s, change, unsignedLongValue)
  {
    ObservingIffRegistered(s.world);
  }

  // ---------------------------------------------------------------------
  // End to end

  /** Observing a number property with old and new values: when the property
      goes from `x` to `y` by a setting change, the handler is called once
      with `(Setting, x, y)`. */
  lemma NumberObserverSeesSetting<T(!new), R>(keyPath: string, nc: NumberWrappable.Conformance<T>, handler: Handler<T, R>,
                                              kindNumber: Kind -> Number, unsignedLongValue: Number -> UInt, x: T, y: T)
    requires NumberWrappable.RoundTrips(nc) && KindNumberRead(kindNumber, unsignedLongValue, Setting)
    ensures var s := AddNumberObserver(keyPath, nc, handler);
      var c := Change(Setting, Some(Boxed(NumberValue(nc.toNumber(x)))), Some(Boxed(NumberValue(nc.toNumber(y)))));
      HostDeliver(s, HostNotification(s, c, kindNumber), unsignedLongValue) == Delivered(handler(Setting, Some(x), Some(y)))
  {
    var s := AddNumberObserver(keyPath, nc, handler);
    var c := Change(Setting, Some(Boxed(NumberValue(nc.toNumber(x)))), Some(Boxed(NumberValue(nc.toNumber(y)))));
    StartedObserverIsNotified(s, keyPath, {Old, New}, HostNotification(s, c, kindNumber), unsignedLongValue);
    DecodeHostChange(true, true, c, kindNumber, unsignedLongValue, s.cast);
  }

  /** A simple number observer hands its handler exactly the new value, even
      when the change had an old one. */
  lemma SimpleNumberObserverSeesNewValue<T(!new), R>(keyPath: string, nc: NumberWrappable.Conformance<T>, handler: Optional<T> -> R,
                                                     kindNumber: Kind -> Number, unsignedLongValue: Number -> UInt,
                                                     kind: Kind, x: T, y: T)
    requires NumberWrappable.RoundTrips(nc) && KindNumberRead(kindNumber, unsignedLongValue, kind)
    ensures var s := AddSimpleNumberObserver(keyPath, nc, handler);
      var c := Change(kind, Some(Boxed(NumberValue(nc.toNumber(x)))), Some(Boxed(NumberValue(nc.toNumber(y)))));
      HostDeliver(s, HostNotification(s, c, kindNumber), unsignedLongValue) == Delivered(handler(Some(y)))
  {
    var s := AddSimpleNumberObserver(keyPath, nc, handler);
    var c := Change(kind, Some(Boxed(NumberValue(nc.toNumber(x)))), Some(Boxed(NumberValue(nc.toNumber(y)))));
    StartedObserverIsNotified(s, keyPath, {New}, HostNotification(s, c, kindNumber), unsignedLongValue);
    DecodeHostChange(false, true, c, kindNumber, unsignedLongValue, s.cast);
  }

  /** A struct observer hands its handler the very values that were boxed,
      `nil` staying `nil`. */
  lemma StructObserverRoundTrip<T(!new), R>(keyPath: string, vc: ValueWrappable.Conformance<T>, handler: Handler<T, R>,
                                            kindNumber: Kind -> Number, unsignedLongValue: Number -> UInt, c: Change<T>)
    requires ValueWrappable.RoundTrips(vc) && KindNumberRead(kindNumber, unsignedLongValue, c.kind)
    ensures var s := AddStructObserver(keyPath, vc, handler);
      var boxed := Change(c.kind, ValueWrappable.ToOptionalValue(vc, c.oldValue).Map(v => Boxed(v)),
                          ValueWrappable.ToOptionalValue(vc, c.newValue).Map(v => Boxed(v)));
      HostDeliver(s, HostNotification(s, boxed, kindNumber), unsignedLongValue) == Delivered(handler(c.kind, c.oldValue, c.newValue))
  {
    var s := AddStructObserver(keyPath, vc, handler);
    var boxed := Change(c.kind, ValueWrappable.ToOptionalValue(vc, c.oldValue).Map(v => Boxed(v)),
                        ValueWrappable.ToOptionalValue(vc, c.newValue).Map(v => Boxed(v)));
    StartedObserverIsNotified(s, keyPath, {Old, New}, HostNotification(s, boxed, kindNumber), unsignedLongValue);
    DecodeHostChange(true, true, boxed, kindNumber, unsignedLongValue, s.cast);
    StructChangeRoundTrip(vc, c);
  }

  /** An enum observer hands its handler the cases whose raw values the host
      boxed. */
  lemma EnumObserverRoundTrip<Raw(!new), E(!new), R>(keyPath: string, nc: NumberWrappable.Conformance<Raw>, rr: RawRepresentable<Raw, E>,
                                                     handler: Handler<E, R>, kindNumber: Kind -> Number,
                                                     unsignedLongValue: Number -> UInt, kind: Kind, x: E, y: E)
    requires NumberWrappable.RoundTrips(nc) && RawRoundTrips(rr) && KindNumberRead(kindNumber, unsignedLongValue, kind)
    ensures var s := AddEnumObserver(keyPath, nc, rr, handler);
      var c := Change(kind, Some(Boxed(NumberValue(nc.toNumber(rr.toRaw(x))))), Some(Boxed(NumberValue(nc.toNumber(rr.toRaw(y))))));
      HostDeliver(s, HostNotification(s, c, kindNumber), unsignedLongValue) == Delivered(handler(kind, Some(x), Some(y)))
  {
    var s := AddEnumObserver(keyPath, nc, rr, handler);
    var c := Change(kind, Some(Boxed(NumberValue(nc.toNumber(rr.toRaw(x))))), Some(Boxed(NumberValue(nc.toNumber(rr.toRaw(y))))));
    StartedObserverIsNotified(s, keyPath, {Old, New}, HostNotification(s, c, kindNumber), unsignedLongValue);
    DecodeHostChange(true, true, c, kindNumber, unsignedLongValue, s.cast);
    EnumRoundTrip(nc, rr, x);
    EnumRoundTrip(nc, rr, y);
  }

  /** The generic observer calls its handler once for every well-formed
      change, whatever the values. */
  lemma AnyObserverSeesEveryChange<R>(keyPath: string, handler: () -> R, kindNumber: Kind -> Number,
                                      unsignedLongValue: Number -> UInt, c: Change<Obj>)
    requires KindNumberRead(kindNumber, unsignedLongValue, c.kind)
    ensures var s := AddAnyObserver(keyPath, handler);
      HostDeliver(s, HostNotification(s, c, kindNumber), unsignedLongValue) == Delivered(handler())
  {
    var s := AddAnyObserver(keyPath, handler);
    StartedObserverIsNotified(s, keyPath, {}, HostNotification(s, c, kindNumber), unsignedLongValue);
    DecodeHostChange(false, false, c, kindNumber, unsignedLongValue, s.cast);
  }
}

=== FILE: swift.dfy ===
/** The few Swift language notions the bridging layer leans on: optionals,
    code that can trap, and the ranges of the fixed-width integer types. */
module Swift {

  /** Swift's `Optional`: `None` is `nil`. */
  datatype Optional<+T> = None | Some(value: T) {

    /** `Optional.map`: `nil` stays `nil`, a value is transformed. */
    function Map<U>(f: T -> U): (r: Optional<U>)
      ensures r.None? <==> None?
      ensures Some? ==> r.value == f(value)
    {
      match this
      case None => None
      case Some(x) => Some(f(x))
    }
  }

  /** The outcome of code that may trap at run time: a failed forced cast
      (`as!`), a failed forced unwrap (`!`) or an arithmetic overflow. A trap
      ends the process; it is not an error value a caller can inspect. */
  datatype Trapping<+T> = Trapped | Returns(result: T)

  /** Widths of the fixed-size integer types. `Int` and `UInt` are the 64-bit
      machine word of the platforms modelled. */
  datatype Width = W8 | W16 | W32 | W64

  /** 2^(bits - 1): the magnitude of the most negative signed value. */
  function Half(w: Width): (h: nat)
    ensures h >= 0x80
  {
    match w
    case W8 => 0x80
    case W16 => 0x8000
    case W32 => 0x8000_0000
    case W64 => 0x8000_0000_0000_0000
  }

  /** `Int8.min`, `Int16.min`, ... */
  function SignedMin(w: Width): int { -(Half(w) as int) }

  /** `Int8.max`, `Int16.max`, ... */
  function SignedMax(w: Width): int { Half(w) - 1 }

  /** `UInt8.max`, `UInt16.max`, ... */
  function UnsignedMax(w: Width): int { 2 * Half(w) - 1 }

  /** `x` is a value of the signed type of width `w`. */
  predicate IsSigned(w: Width, x: int) { SignedMin(w) <= x <= SignedMax(w) }

  /** `x` is a value of the unsigned type of width `w`. */
  predicate IsUnsigned(w: Width, x: int) { 0 <= x <= UnsignedMax(w) }

  /** `UInt`, the unsigned machine word: 64 bits on the platforms modelled. */
  type UInt = x: int | 0 <= x <= 0xFFFF_FFFF_FFFF_FFFF

  /** Every unsigned value of any width fits the `UInt64` mantissa. */
  lemma UnsignedFitsUInt64(w: Width, x: int)
    requires IsUnsigned(w, x)
    ensures IsUnsigned(W64, x)
  {
  }

  /** Swift's unary minus on a signed integer of width `w`: it traps when
      the result does not fit, which happens for `T.min` alone. */
  function NarrowNegate(w: Width, x: int): (r: Trapping<int>)
    requires IsSigned(w, x)
    ensures r.Trapped? <==> x == SignedMin(w)
    ensures r.Returns? ==> r.result == -x && IsSigned(w, r.result)
  {
    if IsSigned(w, -x) then Returns(-x) else Trapped
  }
}

=== FILE: value_wrappable.dfy ===
/** `NSValueWrappable`: a Swift type that can be boxed as an `NSValue`, and
    the extensions that lift boxing and unboxing to optionals. */
module ValueWrappable {
  import opened Swift
  import opened Boxes

  /** A conformance to `NSValueWrappable`: the type's `init(value:)` and
      `toNSValue()`. Unboxing may trap: the default `init(value:)` of number
      types is a forced cast to `NSNumber`. */
  datatype Conformance<!T> = Conformance(fromValue: Value -> Trapping<T>, toValue: T -> Value)

  /** Unboxing undoes boxing for every value of the type. */
  ghost predicate RoundTrips<T(!new)>(c: Conformance<T>) {
    forall x :: c.fromValue(c.toValue(x)) == Returns(x)
  }

  /** `Optional<Wrapped>.init(optionalValue:)`: `nil` stays `nil`, a box is
      unboxed with `Wrapped(value:)`. */
  function OptionalFromValue<T>(c: Conformance<T>, ov: Optional<Value>): (r: Trapping<Optional<T>>)
    ensures ov.None? ==> r == Returns(None)
    ensures ov.Some? && c.fromValue(ov.value).Returns? ==> r == Returns(Some(c.fromValue(ov.value).result))
    ensures r.Trapped? <==> ov.Some? && c.fromValue(ov.value).Trapped?
  {
    match ov
    case None => Returns(None)
    case Some(v) =>
      match c.fromValue(v)
      case Trapped => Trapped
      case Returns(x) => Returns(Some(x))
  }

  /** `Optional<Wrapped>.toOptionalNSValue()`: `None` boxes to `nil`, a
      wrapped value to its own box. */
  function ToOptionalValue<T>(c: Conformance<T>, o: Optional<T>): (r: Optional<Value>)
    ensures r.None? <==> o.None?
    ensures o.Some? ==> r == Some(c.toValue(o.value))
  {
    match o
    case None => None
    case Some(x) => Some(c.toValue(x))
  }

  /** The failable `NSValueWrappable.init?(optionalValue:)`: fails exactly on
      `nil`, otherwise it is `init(value:)`. */
  function FailableFromValue<T>(c: Conformance<T>, ov: Optional<Value>): (r: Trapping<Optional<T>>)
    ensures r == Returns(None) <==> ov.None?
    ensures ov.Some? ==> r.Trapped? == c.fromValue(ov.value).Trapped?
    ensures ov.Some? && r.Returns? ==> r.result == Some(c.fromValue(ov.value).result)
  {
    if ov.None? then Returns(None)
    else if c.fromValue(ov.value).Trapped? then Trapped
    else Returns(Some(c.fromValue(ov.value).result))
  }

  /** The failable protocol initializer and the `Optional` initializer are two
      spellings of one lifting. */
  lemma FailableAgreesWithOptionalInit<T>(c: Conformance<T>, ov: Optional<Value>)
    ensures FailableFromValue(c, ov) == OptionalFromValue(c, ov)
  {
  }

  /** When `Wrapped` round-trips through its box, so does `Optional<Wrapped>`:
      `nil` goes to `nil` and back, a value to its box and back. */
  lemma OptionalRoundTrip<T(!new)>(c: Conformance<T>, o: Optional<T>)
    requires RoundTrips(c)
    ensures OptionalFromValue(c, ToOptionalValue(c, o)) == Returns(o)
  {
  }
}
